=== FILE: README.md ===
# Workout session tracker: a Dafny model

This project models the session-tracking core of a Flask workout backend. It covers:

- starting a workout session from an ordered list of exercise specs;
- recording completed sets per exercise, with a saturating counter;
- finishing a session;
- the progress summary over a trailing 7-, 30- or 365-day window;
- the voice coach's cue timeline for one exercise.

The database is an immutable value. Each HTTP handler is one pure transition
that returns the new store and the handler's reply.

Modules:

- `Records` (`records.dfy`): the `Session` and `Exercise` rows and the store
  (`seq<Session>`, where session id `k` is `store[k - 1]`). It also defines
  the invariants a stored session keeps (`WellFormed`) and what may change in
  a session over time (`Advances`).
- `Lifecycle` (`lifecycle.dfy`): `Start`, `CompleteSet` and `Finish`, plus
  `Run`, which applies a history of requests.
- `Progress` (`progress.dfy`): `Summarize`, computed like the handler (query,
  then fold). It is proved equal to reference definitions stated directly
  over the store.
- `Coach` (`coach.dfy`): `Timeline`, a loop that builds the cue list. It is
  proved equal to a description by position (`SegmentAt`).

Modelling decisions:

- Timestamps are integer seconds, and `now` is a parameter. A calendar date
  is `t / 86400`; Dafny's `/` floors for a positive divisor, like Python's
  `.date()`.
- Whether a commit fails is a boolean parameter. A failed commit answers
  `StoreFailure` and leaves the store exactly as it was, which models the
  handlers' `rollback`.
- Session ids are 1, 2, 3, … in creation order. This is SQLite's rowid
  allocation when no row is ever deleted, and this core never deletes. Once
  id 2^63−1 is taken no rowid is left, so a further start fails.
- The `<int:sess_id>` route (app.py:257, app.py:288) matches only a
  string of digits, so the session id of set completion and finishing is a
  `nat`. A negative id never reaches a handler: the router answers 404
  itself. The handler's `int(...)` takes any integer, including negative
  ones. But the columns and query parameters are SQLite INTEGERs, which
  hold signed 64-bit values. A value outside that range raises inside the handler's
  `try`, which rolls back and answers 500; the model answers `StoreFailure`
  and changes nothing. For `Start`, this covers a set, rep or rest count,
  the planned total or an order index outside the range
  (`Lifecycle.Storable`). For `CompleteSet` and `Finish`, it covers a
  session id above 2^63−1, and for `CompleteSet` an exercise index
  outside the range.
  Such an id or index is refused before the lookup answers "not found".
  The counts may still be negative. A negative plan accepts no completions, because
  `completed < sets` never holds. So the per-exercise bound is
  `0 <= completed <= max(0, sets)`.
- The session bound `completed <= total_sets` holds only when no planned
  count is negative. `Lifecycle.NegativePlanOverrunsTotal` shows that it
  fails otherwise.

Behaviour of the code worth noting:

- The title falls back to "Workout Session" only when the field is absent.
  An empty title is kept as it is.
- Finishing an already finished session succeeds and overwrites its end time.
- With `sets >= 1` the coach timeline has `3 * sets + 1` cues: one intro, two
  per set, `sets - 1` rests and one outro. With `sets <= 0` it has 2 cues,
  the intro and the outro.

## Model

| member | source | states |
|---|---|---|
| Lifecycle.Start | app.py:225-255 | The request succeeds iff the commit does not fail, an id below 2^63 is free, and every set/rep/rest count, order index and the planned total fit in 64 bits. Otherwise it answers a store failure and leaves the store unchanged. On success one session is appended with id `|store|+1`, status active, no end time, start time `now` and every counter 0. Exercise `i` has order index `i` and the spec's fields, with defaults 1/10/60/"Exercise". `total_sets` (stored and returned) is the sum of the requested set counts, and the new session satisfies all session invariants. |
| Lifecycle.OversizedPlanFails | app.py:237-253 | A set count of 2^63, or two counts 2^63−1 and 1 whose total is 2^63, makes the start request answer a store failure with the store unchanged. |
| Lifecycle.SpecSetsIsPlannedTotal | app.py:236-248 | The total accumulated over the specs equals the sum of the planned sets of the created exercise rows. |
| Lifecycle.FindExercise | app.py:266 | The lookup returns the first position whose order index matches, and it is absent exactly when no exercise has that order index. |
| Lifecycle.FindPositional | app.py:243 | When each exercise's order index is its position, the lookup finds index `i` exactly when `0 <= i < |exercises|`. |
| Lifecycle.CompleteSet | app.py:257-286 | A store failure is returned iff the id is outside 64 bits, or the session is active and the index (default 0) is outside 64 bits, or the exercise exists and the commit fails. Otherwise, "not found/active" is returned iff the session is absent or not active, and "exercise not found" iff it is active but no exercise has the index. The request succeeds iff id and index fit, the session is active, the exercise exists and the commit succeeds. Every error leaves the store unchanged. On success only that exercise and session change. Below the plan, both counters rise by exactly 1; at or above it, nothing changes. The reply echoes the new counters, and `workout_finished` is true iff session completed >= total_sets after the update. |
| Records.GetAppend | app.py:232-235 | After a session is appended, id `|store|+1` finds it and every other id finds what it found before. |
| Records.GetUpdate | app.py:269-271 | After the session with id `k` is replaced, id `k` finds the new session and every other id finds what it found before. |
| Lifecycle.Bump | app.py:269-271 | Below the exercise's plan, the exercise counter and the session counter each rise by 1. At or above it the session is unchanged. Nothing else in the session changes. |
| Lifecycle.BumpKeepsInvariants | app.py:269-271 | One completion keeps a session well-formed: session completed = Σ exercise completed, `0 <= ex.completed <= max(0, ex.sets)`, and total_sets = Σ sets. It only advances the session. |
| Lifecycle.CompleteSetKeepsInvariants | app.py:263-272 | Set completion keeps every stored session well-formed and only lets sessions advance. The store keeps its length, every other session is unchanged, and the addressed session keeps its status and end time. |
| Lifecycle.CompleteSetAddressesPosition | app.py:266-268 | On an active well-formed session, a committed completion succeeds exactly when the index is within the exercise list. |
| Lifecycle.CompleteTimesSaturates | app.py:269-271 | `n` completions of one exercise from counter `c` leave it at `min(c + n, max(0, sets))`. The session counter rises by the same amount and other sessions do not change, so calls past saturation are no-ops. |
| Lifecycle.NegativePlanOverrunsTotal | app.py:237-271 | Plans of -5 and 10 sets give total_sets 5, yet ten completions are accepted: session completed 10 > total_sets 5. |
| Lifecycle.LegDayScenario | app.py:225-281 | A "Leg Day" session with one 3-set push-up gets id 1 and total 3. Four completions answer 1/1, 2/2, 3/3 (finished) and 3/3 (finished, store unchanged). |
| Lifecycle.Finish | app.py:288-303 | An id outside 64 bits, or a failed commit, answers a store failure. Otherwise an absent id answers "not found". Every error leaves the store unchanged. The request succeeds iff the id fits, the session exists and the commit succeeds. Otherwise the session (active or already finished) gets status finished and end time `now`, and nothing else changes. |
| Lifecycle.FinishKeepsInvariants | app.py:292-297 | Finishing keeps every session well-formed (end time set iff finished) and only advances sessions. |
| Lifecycle.OversizedIdFails | app.py:263-266 | Session id 2^63 makes both set completion and finishing answer a store failure with the store unchanged. So does exercise index 2^63 on an active session, where the source's bound query parameter overflows and the handler rolls back. |
| Lifecycle.FinishClosesSession | app.py:264-265 | After a successful finish, every set-completion request on that session answers "not found/active" and leaves the store unchanged. |
| Lifecycle.FinishTwice | app.py:292-298 | Finishing an existing session whose id fits in 64 bits twice succeeds both times, and the result equals finishing once at the later time. For an absent id both replies are the same error. |
| Lifecycle.RunKeepsInvariants | app.py:225-303 | Any history of start, complete-set and finish requests keeps every session well-formed. Every existing session only advances: counters never decrease, plans and start time never change, and a finished session never becomes active again. |
| Lifecycle.FinishedIsFinal | app.py:264-265 | Once a session is finished, a set-completion request after any further history of requests is refused. |
| Records.CompletedWithinTotal | app.py:43-56 | A well-formed session whose planned set counts are non-negative has `0 <= completed <= total_sets`. |
| Progress.InWindowSelects | app.py:318-319 | The query returns exactly the sessions with start time >= since, each as many times as it is stored. It has as many rows as there are session ids in the window. |
| Progress.FoldMatchesWindow | app.py:321-326 | Summing completed sets over the query result gives the completed sets of all sessions in the window. |
| Progress.StartDaysBounded | app.py:328-329 | The number of distinct start dates is at most the number of sessions, and zero exactly when there are no sessions. |
| Progress.Summarize | app.py:305-332 | `workouts` is the number of sessions with start time >= `now − {30 (month), 365 (year), 7 (other)} days`. totalTime = 3 × and xpGained = 10 × their completed sets. streak is the number of their distinct start dates. `0 <= streak <= workouts`, and streak = 0 iff workouts = 0. |
| Progress.EmptyWindowIsZero | app.py:318-330 | When no session started inside the window, all four metrics are 0. |
| Progress.PeriodWindows | app.py:311-316 | "month" sets the window start 30 days before `now` and "year" 365 days before. Every other period string sets it 7 days before. So the year window starts no later than the month window, which starts no later than the week window. |
| Progress.WiderWindowSeesMore | app.py:318 | Moving the window start earlier never drops a session id, a start date or completed sets, in a well-formed store. |
| Progress.LongerPeriodDominates | app.py:311-330 | For a well-formed store, each of the four metrics for "year" is >= the one for "month", which is >= the one for "week". |
| Progress.TwoSessionsScenario | app.py:320-329 | Two sessions in the week with 2 and 5 completed sets give 2 workouts, 21 minutes and 70 XP. The streak is 1 if they started on the same date and 2 otherwise. |
| Coach.Tempo | app.py:338 | The tempo is the larger of 1 and the requested tempo: the requested tempo when it is at least 1, and exactly 1 otherwise. |
| Coach.SetSecs | app.py:339 | A set's estimated seconds are at least 10 and at least reps × tempo, and equal one of the two. |
| Coach.SetCues | app.py:344-348 | Set `s` (1-based) has its begin cue (3 s) at position 3s−2 and its work cue at 3s−1. A rest cue of `rest` seconds is at 3s when `s < sets`. |
| Coach.RestLeadsToNextSet | app.py:347-349 | The rest cue at position `k` is followed by the 3 s begin cue of set `k / 3 + 1`, the next set, so no rest comes after the last set. |
| Coach.Timeline | app.py:338-349 | The loop-built timeline has `3·sets+1` cues (2 when sets <= 0) and is exactly the positional description. It starts with the 5 s intro and ends with the 5 s outro. Set `s` begins and works at its positions, a rest follows every set but the last, the cue before the outro is the last work cue, and every work cue lasts >= 10 s. |
| Coach.CoachTimeline | app.py:67-72 | Absent numbers in the request take the defaults 3 sets, 12 reps, 60 s rest and 3 s per rep, and the timeline is the positional description for those values. With every number absent there are 10 cues: intro, 36 s work cues and 60 s rests. |

## Left out

- Records.CompletedWithinTotal: requires every planned set count to be non-negative. The handler accepts negative counts, and the bound then fails, as `Lifecycle.NegativePlanOverrunsTotal` shows.
- Request and JSON parsing (app.py:227-229, 259-260, 307, 337): the handlers' inputs are typed fields, and an absent field is `None`, which takes the handler's default. A malformed value is not modelled. In start, `int(...)` raises inside the `try`, which rolls back and answers 500, the same effect as `StoreFailure`. In complete-set, `int(...)` at app.py:260 runs before the `try`, so the request fails with 500 before anything is read or written. In the coach, a missing `exercise` or a non-integer number fails validation with no timeline built.
- Coach request `level` (app.py:73): it only feeds the language-model prompt, so the timeline ignores it.
- Lifecycle.CompleteSet: does not model the commit failing when the session counter would pass 2^63−1, because reaching it takes more than 2^63 accepted requests. Each exercise counter stays below its stored set count, which fits.
- The SQLAlchemy engine, connections, flush and close (app.py:27-59, 230-235, 249-255, 261, 282-290, 297-303, 308, 331-332): the store is a value. Only the commit is modelled as failing for reasons outside the model, through the `commitFails` parameter. The out-of-range values above are decided by the model itself.
- The store-query order of `.first()` (app.py:266): the first exercise whose order index matches is taken. Order indices are unique in every well-formed session, so the order does not matter.
- `user_id` (app.py:38): no handler of this core sets it, so new sessions have no owner.
- Sub-second timestamp precision and time zones: timestamps are integer seconds in one time base. `utcnow()` is the parameter `now`.
- A store failure during the progress summary: the read-only handler has no rollback and only propagates the exception.
- Concurrent requests: each handler is one atomic transition.
- The coach's spoken text formatting, the language-model script, replacing the timeline by one the model returns, duration patching, speech synthesis and audio caching (app.py:341-349 text only, 351-386): formatting and foreign services. The cues keep the numbers the text mentions.
- The exercise catalog proxy and its routes (app.py:76-86, 137-180), plan generation (app.py:183-222), the language-model and speech-synthesis clients (app.py:88-135), audio serving and transcription (app.py:388-426): network, file-system and third-party services with no session state.
- Rowid exhaustion of the exercise table: a start could also fail once 2^63−1 exercise rows exist. The model bounds only the session ids, because the exercise rows' own ids are never observed.
- user_logic.py: an HTTP wrapper with no logic of its own.

=== FILE: coach.dfy ===
/**
  The voice coach's cue timeline for one exercise: a get-ready cue, then for
  each set a "begin" cue and a "work" cue, a rest cue between consecutive
  sets (never after the last), and a closing cue. The spoken text is
  represented by the cue's kind and the numbers it mentions.
 */
module Coach {
  import opened Records

  datatype Cue =
    | GetReady(exercise: string, reps: int)  // names the exercise and the rep count
    | SetBegin(setNumber: int)               // "Set n begin"
    | Work
    | Rest(seconds: int)                     // names the rest length
    | WrapUp

  datatype Segment = Segment(cue: Cue, durationSecs: int)

  const IntroSecs: int := 5
  const BeginSecs: int := 3
  const OutroSecs: int := 5
  /** No set is estimated at fewer seconds than this. */
  const MinSetSecs: int := 10

  /** Seconds per rep; a tempo below one counts as one. */
  function Tempo(tempoSecPerRep: int): (t: int)
    ensures t >= 1
    ensures tempoSecPerRep >= 1 ==> t == tempoSecPerRep
    ensures tempoSecPerRep < 1 ==> t == 1
  {
    if tempoSecPerRep < 1 then 1 else tempoSecPerRep
  }

  /** Estimated seconds of one set: reps times tempo, but never under `MinSetSecs`. */
  function SetSecs(reps: int, tempoSecPerRep: int): (d: int)
    ensures d >= MinSetSecs
    ensures d >= reps * Tempo(tempoSecPerRep)
    ensures d == MinSetSecs || d == reps * Tempo(tempoSecPerRep)
  {
    var work := reps * Tempo(tempoSecPerRep);
    if work < MinSetSecs then MinSetSecs else work
  }

  /** A coaching request; an absent number takes its default. */
  datatype CoachRequest = CoachRequest(
    exercise: string,
    sets: Option<int>,
    reps: Option<int>,
    rest: Option<int>,
    tempoSecPerRep: Option<int>)

  const DefaultSets: int := 3
  const DefaultReps: int := 12
  const DefaultRest: int := 60
  const DefaultTempo: int := 3

  /** One intro, two cues per set, a rest between consecutive sets, one outro. */
  function TimelineLength(sets: int): nat {
    if sets >= 1 then 3 * sets + 1 else 2
  }

  /** Position of the "begin" cue of set `s` (counting sets from 1). */
  function BeginPos(s: int): int { 3 * s - 2 }

  /** Position of the "work" cue of set `s`. */
  function WorkPos(s: int): int { 3 * s - 1 }

  /** Position of the rest cue that follows set `s`. */
  function RestPos(s: int): int { 3 * s }

  /**
    The segment at position `k` of the timeline, described by position alone:
    after the intro, positions come in groups of three (begin, work, rest)
    per set, and the last position is the outro.
   */
  function SegmentAt(k: nat, exercise: string, sets: int, reps: int, rest: int, tempo: int): Segment
    requires k < TimelineLength(sets)
  {
    if k == 0 then Segment(GetReady(exercise, reps), IntroSecs)
    else if k == TimelineLength(sets) - 1 then Segment(WrapUp, OutroSecs)
    else if (k - 1) % 3 == 0 then Segment(SetBegin((k - 1) / 3 + 1), BeginSecs)
    else if (k - 1) % 3 == 1 then Segment(Work, SetSecs(reps, tempo))
    else Segment(Rest(rest), rest)
  }

  /** The cues of set `s` sit at the positions `BeginPos`, `WorkPos` and `RestPos` name. */
  lemma SetCues(s: int, exercise: string, sets: int, reps: int, rest: int, tempo: int)
    requires 1 <= s <= sets
    ensures 0 < BeginPos(s) < WorkPos(s) < RestPos(s) < TimelineLength(sets)
    ensures SegmentAt(BeginPos(s), exercise, sets, reps, rest, tempo) == Segment(SetBegin(s), BeginSecs)
    ensures SegmentAt(WorkPos(s), exercise, sets, reps, rest, tempo) == Segment(Work, SetSecs(reps, tempo))
    ensures s < sets ==> SegmentAt(RestPos(s), exercise, sets, reps, rest, tempo) == Segment(Rest(rest), rest)
  {
    var q := s - 1;
    assert BeginPos(s) - 1 == 3 * q;
    assert (3 * q) % 3 == 0 && (3 * q) / 3 == q;
    assert (3 * q + 1) % 3 == 1;
    assert (3 * q + 2) % 3 == 2;
  }

  /** A rest cue is always followed by the next set's begin cue, so no rest precedes the outro. */
  lemma RestLeadsToNextSet(k: nat, exercise: string, sets: int, reps: int, rest: int, tempo: int)
    requires k < TimelineLength(sets)
    requires SegmentAt(k, exercise, sets, reps, rest, tempo).cue.Rest?
    ensures k + 1 < TimelineLength(sets) - 1
    ensures SegmentAt(k + 1, exercise, sets, reps, rest, tempo) == Segment(SetBegin(k / 3 + 1), BeginSecs)
  {
    var q := (k - 1) / 3;
    assert k == 3 * (q + 1);
    assert q + 1 < sets;
    SetCues(q + 2, exercise, sets, reps, rest, tempo);
    assert BeginPos(q + 2) == k + 1;
  }

  /**
    Builds the timeline one set at a time, as the handler does. The result
    is exactly the positional description `SegmentAt`, and in terms of sets:
    set `s` begins at `BeginPos(s)` and works at `WorkPos(s)`, a rest follows
    every set but the last, and the cue before the outro is the last set's
    work cue.
   */
  method Timeline(exercise: string, sets: int, reps: int, rest: int, tempo: int)
    returns (segs: seq<Segment>)
    ensures |segs| == TimelineLength(sets)
    ensures forall k :: 0 <= k < |segs| ==> segs[k] == SegmentAt(k, exercise, sets, reps, rest, tempo)
    ensures segs[0] == Segment(GetReady(exercise, reps), IntroSecs)
    ensures segs[|segs| - 1] == Segment(WrapUp, OutroSecs)
    ensures forall s :: 1 <= s <= sets ==>
              && segs[BeginPos(s)] == Segment(SetBegin(s), BeginSecs)
              && segs[WorkPos(s)] == Segment(Work, SetSecs(reps, tempo))
    ensures forall s :: 1 <= s < sets ==> segs[RestPos(s)] == Segment(Rest(rest), rest)
    ensures sets >= 1 ==> segs[|segs| - 2].cue == Work
    ensures forall k :: 0 <= k < |segs| && segs[k].cue == Work ==> segs[k].durationSecs >= MinSetSecs
  {
    var estSetSecs := SetSecs(reps, tempo);
    segs := [Segment(GetReady(exercise, reps), IntroSecs)];
    var s := 1;
    while s <= sets
      invariant 1 <= s
      invariant sets >= 1 ==> s <= sets + 1
      invariant sets < 1 ==> s == 1
      invariant |segs| == (if s <= sets then 3 * s - 2 else if sets >= 1 then 3 * sets else 1)
      invariant forall k :: 0 <= k < |segs| ==> segs[k] == SegmentAt(k, exercise, sets, reps, rest, tempo)
    {
      SetCues(s, exercise, sets, reps, rest, tempo);
      ghost var before := segs;
      segs := segs + [Segment(SetBegin(s), BeginSecs), Segment(Work, estSetSecs)];
      if s < sets {
        segs := segs + [Segment(Rest(rest), rest)];
      }
      forall k | 0 <= k < |segs|
        ensures segs[k] == SegmentAt(k, exercise, sets, reps, rest, tempo)
      {
        if k < |before| {
          assert segs[k] == before[k];
        } else if k == BeginPos(s) {
        } else if k == WorkPos(s) {
        } else {
          assert k == RestPos(s);
        }
      }
      s := s + 1;
    }
    segs := segs + [Segment(WrapUp, OutroSecs)];
    forall s | 1 <= s <= sets
      ensures segs[BeginPos(s)] == Segment(SetBegin(s), BeginSecs)
      ensures segs[WorkPos(s)] == Segment(Work, SetSecs(reps, tempo))
      ensures s < sets ==> segs[RestPos(s)] == Segment(Rest(rest), rest)
    {
      SetCues(s, exercise, sets, reps, rest, tempo);
    }
    if sets >= 1 {
      SetCues(sets, exercise, sets, reps, rest, tempo);
    }
  }

  /**
    The coach's timeline for a request: the absent numbers take their
    defaults (3 sets of 12 reps, 60 s rest, 3 s per rep) and the timeline is
    built from the resulting values.
   */
  method CoachTimeline(req: CoachRequest) returns (segs: seq<Segment>)
    ensures var sets := req.sets.GetOr(DefaultSets);
            var reps := req.reps.GetOr(DefaultReps);
            var rest := req.rest.GetOr(DefaultRest);
            var tempo := req.tempoSecPerRep.GetOr(DefaultTempo);
            && |segs| == TimelineLength(sets)
            && forall k :: 0 <= k < |segs| ==> segs[k] == SegmentAt(k, req.exercise, sets, reps, rest, tempo)
    ensures req.sets.None? && req.reps.None? && req.rest.None? && req.tempoSecPerRep.None? ==>
              && |segs| == 10
              && segs[0] == Segment(GetReady(req.exercise, 12), IntroSecs)
              && segs[2] == Segment(Work, 36)
              && segs[3] == Segment(Rest(60), 60)
              && segs[9] == Segment(WrapUp, OutroSecs)
  {
    segs := Timeline(req.exercise, req.sets.GetOr(DefaultSets), req.reps.GetOr(DefaultReps),
                     req.rest.GetOr(DefaultRest), req.tempoSecPerRep.GetOr(DefaultTempo));
  }
}

=== FILE: lifecycle.dfy ===
/**
  The session lifecycle: starting a session from a list of exercise specs,
  recording set completions, and finishing a session. Each handler is one
  atomic transition of the store; a failed commit rolls the transition back.
 */
module Lifecycle {
  import opened Records

  /** One planned exercise as the client sends it; absent fields take defaults. */
  datatype ExerciseSpec = ExerciseSpec(
    name: Option<string>,
    sets: Option<int>,
    reps: Option<int>,
    rest: Option<int>)

  datatype Error =
    | SessionNotFoundOrInactive  // complete-set on an absent or non-active session
    | ExerciseNotFound           // no exercise with the requested order index
    | SessionNotFound            // finish on an absent session
    | StoreFailure               // the commit failed and was rolled back

  datatype Reply<+T> = Ok(value: T) | Err(error: Error)

  /** The store after a handler ran, and what the handler answered. */
  datatype Step<+T> = Step(store: Store, reply: Reply<T>)

  datatype Started = Started(sessionId: int, totalSets: int)

  datatype SetCompleted = SetCompleted(
    sessionId: int,
    exerciseIndex: int,
    exerciseCompleted: int,
    sessionCompleted: int,
    sessionTotalSets: int,
    workoutFinished: bool)

  const DefaultTitle: string := "Workout Session"
  const DefaultExerciseName: string := "Exercise"
  const DefaultSets: int := 1
  const DefaultReps: int := 10
  const DefaultRest: int := 60
  const DefaultExerciseIndex: int := 0

  // ---------------------------------------------------------------------------
  // Start

  /** The exercise row created for the `i`-th spec. */
  function PlannedExercise(i: nat, spec: ExerciseSpec): Exercise {
    Exercise(i, spec.name.GetOr(DefaultExerciseName), spec.sets.GetOr(DefaultSets),
             spec.reps.GetOr(DefaultReps), spec.rest.GetOr(DefaultRest), 0)
  }

  function Plan(specs: seq<ExerciseSpec>): seq<Exercise> {
    seq(|specs|, i requires 0 <= i < |specs| => PlannedExercise(i, specs[i]))
  }

  /** The running total the handler accumulates: the sum of the requested set counts. */
  function SpecSets(specs: seq<ExerciseSpec>): int {
    if |specs| == 0 then 0 else specs[0].sets.GetOr(DefaultSets) + SpecSets(specs[1..])
  }

  /** Rows that carry the requested set counts have the accumulated total as their planned total. */
  lemma {:induction false} SpecSetsIsPlannedTotal(specs: seq<ExerciseSpec>, exs: seq<Exercise>)
    requires |exs| == |specs|
    requires forall i :: 0 <= i < |specs| ==> exs[i].sets == specs[i].sets.GetOr(DefaultSets)
    ensures SumSets(exs) == SpecSets(specs)
    decreases |specs|
  {
    if |specs| > 0 {
      SpecSetsIsPlannedTotal(specs[1..], exs[1..]);
    }
  }

  /** The integer columns of the row created for `spec` can be written. */
  predicate SpecFits(spec: ExerciseSpec) {
    && Int64(spec.sets.GetOr(DefaultSets))
    && Int64(spec.reps.GetOr(DefaultReps))
    && Int64(spec.rest.GetOr(DefaultRest))
  }

  /** Every created row, and the session's planned total, fit the 64-bit integer columns. */
  predicate Storable(specs: seq<ExerciseSpec>) {
    && |specs| <= MaxInt64 + 1
    && (forall i :: 0 <= i < |specs| ==> SpecFits(specs[i]))
    && Int64(SpecSets(specs))
  }

  /**
    Starting a session appends one active session whose exercises follow the
    specs in order, with every counter at zero and `totalSets` the sum of the
    requested set counts. A failed commit, including one that has to write a
    number outside the 64-bit range or finds every rowid taken, leaves the
    store as it was.
   */
  function Start(store: Store, title: Option<string>, specs: seq<ExerciseSpec>,
                 now: int, commitFails: bool): (r: Step<Started>)
    ensures r.reply.Ok? <==> !commitFails && Storable(specs) && |store| < MaxInt64
    ensures r.reply.Err? ==> r == Step(store, Err(StoreFailure))
    ensures r.reply.Ok? ==>
      && r.reply.value.sessionId == |store| + 1
      && |r.store| == |store| + 1
      && r.store[..|store|] == store
      && Get(r.store, r.reply.value.sessionId).Some?
    ensures r.reply.Ok? ==>
      var s := r.store[|store|];
      && s.status == Active
      && s.endTime == None
      && s.owner == None
      && s.startTime == now
      && s.title == title.GetOr(DefaultTitle)
      && s.completed == 0
      && s.totalSets == SpecSets(specs) == r.reply.value.totalSets
      && |s.exercises| == |specs|
      && (forall i :: 0 <= i < |specs| ==>
            && s.exercises[i].orderIndex == i
            && s.exercises[i].completed == 0
            && s.exercises[i].sets == specs[i].sets.GetOr(DefaultSets)
            && s.exercises[i].name == specs[i].name.GetOr(DefaultExerciseName)
            && s.exercises[i].reps == specs[i].reps.GetOr(DefaultReps)
            && s.exercises[i].rest == specs[i].rest.GetOr(DefaultRest))
      && WellFormed(s)
  {
    if commitFails || !Storable(specs) || |store| >= MaxInt64 then Step(store, Err(StoreFailure))
    else
      var exercises := Plan(specs);
      var total := SpecSets(specs);
      var s := Session(None, title.GetOr(DefaultTitle), Active, now, None, total, 0, exercises);
      SpecSetsIsPlannedTotal(specs, exercises);
      ZeroCounters(exercises);
      Step(store + [s], Ok(Started(|store| + 1, total)))
  }

  /**
    A plan the 64-bit columns cannot hold is refused as a store failure even
    when the commit would otherwise succeed: a single set count of 2^63, or
    two set counts that each fit but whose total does not.
   */
  lemma OversizedPlanFails(store: Store, now: int)
    ensures Start(store, None, [ExerciseSpec(None, Some(MaxInt64 + 1), None, None)], now, false)
            == Step(store, Err(StoreFailure))
    ensures Start(store, None, [ExerciseSpec(None, Some(MaxInt64), None, None),
                                ExerciseSpec(None, Some(1), None, None)], now, false)
            == Step(store, Err(StoreFailure))
  {
    var big := [ExerciseSpec(None, Some(MaxInt64 + 1), None, None)];
    assert !SpecFits(big[0]);
    var pair := [ExerciseSpec(None, Some(MaxInt64), None, None), ExerciseSpec(None, Some(1), None, None)];
    assert SpecSets(pair[1..]) == 1;
    assert SpecSets(pair) == MaxInt64 + 1;
  }

  /** Rows whose counters are all zero complete nothing in total. */
  lemma {:induction false} ZeroCounters(exs: seq<Exercise>)
    requires forall i :: 0 <= i < |exs| ==> exs[i].completed == 0
    ensures SumCompleted(exs) == 0
    decreases |exs|
  {
    if |exs| > 0 {
      ZeroCounters(exs[1..]);
    }
  }

  // ---------------------------------------------------------------------------
  // Complete a set

  /** The position of the first exercise whose order index is `index`. */
  function FindExercise(exs: seq<Exercise>, index: int): (r: Option<nat>)
    ensures r.Some? ==> r.value < |exs| && exs[r.value].orderIndex == index
    ensures r.Some? ==> forall j :: 0 <= j < r.value ==> exs[j].orderIndex != index
    ensures r.None? ==> forall j :: 0 <= j < |exs| ==> exs[j].orderIndex != index
  {
    if |exs| == 0 then None
    else if exs[0].orderIndex == index then Some(0)
    else match FindExercise(exs[1..], index)
      case None => None
      case Some(k) => Some(k + 1)
  }

  /** In a positional exercise list, the order index is the position. */
  lemma FindPositional(exs: seq<Exercise>, index: int)
    requires Positional(exs)
    ensures FindExercise(exs, index) == if 0 <= index < |exs| then Some(index) else None
  {
    var r := FindExercise(exs, index);
    if 0 <= index < |exs| {
      assert exs[index].orderIndex == index;
      assert exs[r.value].orderIndex == r.value;
    }
  }

  /**
    The session after one accepted completion of exercise `k`: below its plan
    the exercise counter and the session counter both rise by one, and at or
    above it nothing changes.
   */
  function Bump(s: Session, k: nat): (r: Session)
    requires k < |s.exercises|
    ensures |r.exercises| == |s.exercises|
    ensures r.(completed := s.completed, exercises := s.exercises) == s
    ensures forall j :: 0 <= j < |s.exercises| && j != k ==> r.exercises[j] == s.exercises[j]
    ensures r.exercises[k].(completed := s.exercises[k].completed) == s.exercises[k]
    ensures s.exercises[k].completed < s.exercises[k].sets ==>
              && r.exercises[k].completed == s.exercises[k].completed + 1
              && r.completed == s.completed + 1
    ensures s.exercises[k].completed >= s.exercises[k].sets ==> r == s
  {
    var ex := s.exercises[k];
    if ex.completed < ex.sets then
      s.(completed := s.completed + 1,
         exercises := s.exercises[k := ex.(completed := ex.completed + 1)])
    else s
  }

  /** The session with id `id` exists and is active. */
  predicate IsActive(store: Store, id: int) {
    Get(store, id).Some? && Get(store, id).value.status == Active
  }

  /**
    Records one completed set of the exercise with order index `index`
    (default 0) in session `id`. The route admits only non-negative ids. An
    id or index outside the 64-bit range cannot be bound as a query
    parameter: the handler rolls back and answers a store failure.
   */
  function CompleteSet(store: Store, id: nat, index: Option<int>, commitFails: bool)
    : (r: Step<SetCompleted>)
    // the error cases, each in both directions, and the store is then unchanged
    ensures r.reply.Err? ==> r.store == store
    ensures r.reply == Err(SessionNotFoundOrInactive) <==> Int64(id) && !IsActive(store, id)
    ensures r.reply == Err(ExerciseNotFound) <==>
              && Int64(id) && IsActive(store, id) && Int64(index.GetOr(DefaultExerciseIndex))
              && FindExercise(Get(store, id).value.exercises, index.GetOr(DefaultExerciseIndex)).None?
    ensures r.reply == Err(StoreFailure) <==>
              || !Int64(id)
              || (&& IsActive(store, id)
                  && (|| !Int64(index.GetOr(DefaultExerciseIndex))
                      || (FindExercise(Get(store, id).value.exercises, index.GetOr(DefaultExerciseIndex)).Some?
                          && commitFails)))
    ensures r.reply.Ok? <==>
              && Int64(id) && IsActive(store, id) && Int64(index.GetOr(DefaultExerciseIndex))
              && FindExercise(Get(store, id).value.exercises, index.GetOr(DefaultExerciseIndex)).Some?
              && !commitFails
    // a success touches one exercise of one session, by at most one set
    ensures r.reply.Ok? ==> 1 <= id <= |store| == |r.store|
    ensures r.reply.Ok? ==>
      var s := store[id - 1];
      var k := FindExercise(s.exercises, index.GetOr(DefaultExerciseIndex)).value;
      var ex := s.exercises[k];
      var s' := r.store[id - 1];
      && (forall j :: 0 <= j < |store| && j != id - 1 ==> r.store[j] == store[j])
      && s'.(completed := s.completed, exercises := s.exercises) == s
      && |s'.exercises| == |s.exercises|
      && (forall j :: 0 <= j < |s.exercises| && j != k ==> s'.exercises[j] == s.exercises[j])
      && s'.exercises[k].(completed := ex.completed) == ex
      && (ex.completed < ex.sets ==>
            s'.exercises[k].completed == ex.completed + 1 && s'.completed == s.completed + 1)
      && (ex.completed >= ex.sets ==> s' == s && r.store == store)
      && r.reply.value == SetCompleted(id, index.GetOr(DefaultExerciseIndex),
                                       s'.exercises[k].completed, s'.completed, s'.totalSets,
                                       r.reply.value.workoutFinished)
      && (r.reply.value.workoutFinished <==> s'.completed >= s'.totalSets)
  {
    var idx := index.GetOr(DefaultExerciseIndex);
    if !Int64(id) then Step(store, Err(StoreFailure))
    else match Get(store, id)
    case None => Step(store, Err(SessionNotFoundOrInactive))
    case Some(s) =>
      if s.status != Active then Step(store, Err(SessionNotFoundOrInactive))
      else if !Int64(idx) then Step(store, Err(StoreFailure))
      else match FindExercise(s.exercises, idx)
        case None => Step(store, Err(ExerciseNotFound))
        case Some(k) =>
          if commitFails then Step(store, Err(StoreFailure))
          else
            var s' := Bump(s, k);
            Step(store[id - 1 := s'],
                 Ok(SetCompleted(id, idx, s'.exercises[k].completed, s'.completed,
                                 s'.totalSets, s'.completed >= s'.totalSets)))
  }

  /** One completion keeps a well-formed session well-formed and only lets it advance. */
  lemma BumpKeepsInvariants(s: Session, k: nat)
    requires WellFormed(s)
    requires k < |s.exercises|
    ensures WellFormed(Bump(s, k))
    ensures Advances(s, Bump(s, k))
  {
    var ex := s.exercises[k];
    if ex.completed < ex.sets {
      var ex' := ex.(completed := ex.completed + 1);
      SumCompletedUpdate(s.exercises, k, ex');
      SumSetsUpdate(s.exercises, k, ex');
      var s' := Bump(s, k);
      forall i | 0 <= i < |s'.exercises|
        ensures ExerciseOk(s'.exercises[i])
      {
        if i != k {
          assert s'.exercises[i] == s.exercises[i];
        }
      }
    }
  }

  /**
    Set completion preserves the store invariants (`completed` is the sum of
    the exercise counters, each counter within its plan, `totalSets` the sum
    of the plans) and only lets sessions advance.
   */
  lemma CompleteSetKeepsInvariants(store: Store, id: nat, index: Option<int>, commitFails: bool)
    requires StoreOk(store)
    ensures StoreOk(CompleteSet(store, id, index, commitFails).store)
    ensures StoreAdvances(store, CompleteSet(store, id, index, commitFails).store)
    ensures var after := CompleteSet(store, id, index, commitFails).store;
            && |after| == |store|
            && (forall j :: 0 <= j < |store| && j != id - 1 ==> after[j] == store[j])
            && (1 <= id <= |store| ==>
                  after[id - 1].status == store[id - 1].status && after[id - 1].endTime == store[id - 1].endTime)
  {
    var r := CompleteSet(store, id, index, commitFails);
    if r.reply.Ok? {
      var s := store[id - 1];
      assert WellFormed(s);
      var k := FindExercise(s.exercises, index.GetOr(DefaultExerciseIndex)).value;
      BumpKeepsInvariants(s, k);
      assert r.store == store[id - 1 := Bump(s, k)];
    }
  }

  /**
    With a session's exercises at their positions, completing a set addresses
    exactly the exercise at that position: it succeeds (unless the commit
    fails) exactly when the index is in range.
   */
  lemma CompleteSetAddressesPosition(store: Store, id: nat, index: int)
    requires StoreOk(store)
    requires Get(store, id).Some? && Get(store, id).value.status == Active
    ensures CompleteSet(store, id, Some(index), false).reply.Ok? <==>
              0 <= index < |store[id - 1].exercises|
  {
    FindPositional(store[id - 1].exercises, index);
  }

  // ---------------------------------------------------------------------------
  // Finish

  /**
    Marks a session finished and stamps its end time; an already finished
    session is accepted and its end time overwritten.
   */
  function Finish(store: Store, id: nat, now: int, commitFails: bool): (r: Step<()>)
    ensures r.reply.Err? ==> r.store == store
    ensures r.reply == Err(SessionNotFound) <==> Int64(id) && Get(store, id).None?
    ensures r.reply == Err(StoreFailure) <==> !Int64(id) || (Get(store, id).Some? && commitFails)
    ensures r.reply.Ok? <==> Int64(id) && Get(store, id).Some? && !commitFails
    ensures r.reply.Ok? ==>
      && 1 <= id <= |store| == |r.store|
      && r.store[id - 1] == store[id - 1].(status := Finished, endTime := Some(now))
      && (forall j :: 0 <= j < |store| && j != id - 1 ==> r.store[j] == store[j])
  {
    if !Int64(id) then Step(store, Err(StoreFailure))
    else match Get(store, id)
    case None => Step(store, Err(SessionNotFound))
    case Some(s) =>
      if commitFails then Step(store, Err(StoreFailure))
      else Step(store[id - 1 := s.(status := Finished, endTime := Some(now))], Ok(()))
  }

  lemma FinishKeepsInvariants(store: Store, id: nat, now: int, commitFails: bool)
    requires StoreOk(store)
    ensures StoreOk(Finish(store, id, now, commitFails).store)
    ensures StoreAdvances(store, Finish(store, id, now, commitFails).store)
  {
    var r := Finish(store, id, now, commitFails);
    if r.reply.Ok? {
      assert WellFormed(store[id - 1]);
      var s' := r.store[id - 1];
      assert s'.exercises == store[id - 1].exercises;
    }
  }

  /** After a successful finish, every completion request on that session is refused. */
  lemma FinishClosesSession(store: Store, id: nat, now: int, index: Option<int>, commitFails: bool)
    requires Finish(store, id, now, false).reply.Ok?
    ensures var after := Finish(store, id, now, false).store;
            CompleteSet(after, id, index, commitFails) == Step(after, Err(SessionNotFoundOrInactive))
  {
  }

  /**
    Finishing an existing session twice succeeds both times, and the result
    is the same as finishing once at the later time.
   */
  lemma FinishTwice(store: Store, id: nat, t1: int, t2: int)
    ensures var once := Finish(store, id, t1, false);
            var twice := Finish(once.store, id, t2, false);
            && (Int64(id) && Get(store, id).Some? ==> once.reply == Ok(()) && twice.reply == Ok(()))
            && twice.reply == once.reply
            && twice.store == Finish(store, id, t2, false).store
  {
  }

  /**
    An id or exercise index of 2^63 cannot be looked up: set completion and
    finishing both answer a store failure rather than "not found", whatever
    the store holds, and change nothing.
   */
  lemma OversizedIdFails(store: Store, now: int, index: Option<int>, commitFails: bool)
    ensures CompleteSet(store, MaxInt64 + 1, index, commitFails) == Step(store, Err(StoreFailure))
    ensures Finish(store, MaxInt64 + 1, now, commitFails) == Step(store, Err(StoreFailure))
    ensures forall id: nat :: IsActive(store, id) && Int64(id) ==>
              CompleteSet(store, id, Some(MaxInt64 + 1), commitFails) == Step(store, Err(StoreFailure))
  {
  }

  // ---------------------------------------------------------------------------
  // Histories of requests

  datatype Op =
    | StartOp(title: Option<string>, specs: seq<ExerciseSpec>, now: int, fails: bool)
    | CompleteSetOp(id: nat, index: Option<int>, fails: bool)
    | FinishOp(id: nat, now: int, fails: bool)

  /** The store after one request is handled. */
  function Apply(store: Store, op: Op): Store {
    match op
    case StartOp(title, specs, now, fails) => Start(store, title, specs, now, fails).store
    case CompleteSetOp(id, index, fails) => CompleteSet(store, id, index, fails).store
    case FinishOp(id, now, fails) => Finish(store, id, now, fails).store
  }

  /** The store after the requests are handled one after another. */
  function Run(store: Store, ops: seq<Op>): Store
    decreases |ops|
  {
    if |ops| == 0 then store else Run(Apply(store, ops[0]), ops[1..])
  }

  lemma ApplyKeepsInvariants(store: Store, op: Op)
    requires StoreOk(store)
    ensures StoreOk(Apply(store, op))
    ensures StoreAdvances(store, Apply(store, op))
  {
    match op
    case StartOp(title, specs, now, fails) =>
      var r := Start(store, title, specs, now, fails);
      if r.reply.Ok? {
        forall i | 0 <= i < |r.store|
          ensures WellFormed(r.store[i])
        {
          if i < |store| {
            assert r.store[i] == r.store[..|store|][i];
          }
        }
        forall i | 0 <= i < |store|
          ensures Advances(store[i], r.store[i])
        {
          assert r.store[i] == r.store[..|store|][i];
        }
      }
    case CompleteSetOp(id, index, fails) =>
      CompleteSetKeepsInvariants(store, id, index, fails);
    case FinishOp(id, now, fails) =>
      FinishKeepsInvariants(store, id, now, fails);
  }

  /**
    Every history of requests keeps every stored session well-formed, and
    every session only advances: counters never decrease, plans never change,
    and a finished session stays finished.
   */
  lemma {:induction false} RunKeepsInvariants(store: Store, ops: seq<Op>)
    requires StoreOk(store)
    ensures StoreOk(Run(store, ops))
    ensures StoreAdvances(store, Run(store, ops))
    decreases |ops|
  {
    if |ops| > 0 {
      var next := Apply(store, ops[0]);
      ApplyKeepsInvariants(store, ops[0]);
      RunKeepsInvariants(next, ops[1..]);
      StoreAdvancesTransitive(store, next, Run(next, ops[1..]));
    }
  }

  /** Once a session is finished, no later history of requests can complete a set in it. */
  lemma FinishedIsFinal(store: Store, ops: seq<Op>, id: nat, index: Option<int>, commitFails: bool)
    requires StoreOk(store)
    requires Get(store, id).Some? && Get(store, id).value.status == Finished
    ensures var later := Run(store, ops);
            CompleteSet(later, id, index, commitFails).reply == Err(SessionNotFoundOrInactive)
  {
    RunKeepsInvariants(store, ops);
    var later := Run(store, ops);
    assert Advances(store[id - 1], later[id - 1]);
  }

  // ---------------------------------------------------------------------------
  // Repeated completions of one exercise

  /** The store after `n` committed completion requests for one exercise. */
  function CompleteTimes(store: Store, id: nat, index: int, n: nat): (r: Store)
    ensures |r| == |store|
    decreases n
  {
    if n == 0 then store else CompleteTimes(CompleteSet(store, id, Some(index), false).store, id, index, n - 1)
  }

  /** A counter at `c` after `n` more accepted requests, saturating at `cap`. */
  function Saturate(c: int, n: nat, cap: int): int {
    if c + n < cap then c + n else cap
  }

  /** One `Bump` moves the exercise counter one step toward its capacity, and the session counter with it. */
  lemma BumpSaturates(s: Session, k: nat)
    requires WellFormed(s)
    requires k < |s.exercises|
    ensures Bump(s, k).status == s.status && Bump(s, k).totalSets == s.totalSets
    ensures |Bump(s, k).exercises| == |s.exercises|
    ensures Bump(s, k).exercises[k].sets == s.exercises[k].sets
    ensures Bump(s, k).exercises[k].completed ==
            Saturate(s.exercises[k].completed, 1, Capacity(s.exercises[k]))
    ensures Bump(s, k).completed ==
            s.completed + (Bump(s, k).exercises[k].completed - s.exercises[k].completed)
  {
    assert ExerciseOk(s.exercises[k]);
  }

  /** The session after `n` accepted completions of exercise `k`. */
  function BumpTimes(s: Session, k: nat, n: nat): Session
    requires k < |s.exercises|
    decreases n
  {
    if n == 0 then s else BumpTimes(Bump(s, k), k, n - 1)
  }

  lemma {:induction false} BumpTimesSaturates(s: Session, k: nat, n: nat)
    requires WellFormed(s)
    requires k < |s.exercises|
    ensures var s' := BumpTimes(s, k, n);
            && WellFormed(s')
            && s'.status == s.status
            && s'.totalSets == s.totalSets
            && |s'.exercises| == |s.exercises|
            && s'.exercises[k].completed == Saturate(s.exercises[k].completed, n, Capacity(s.exercises[k]))
            && s'.completed == s.completed + (s'.exercises[k].completed - s.exercises[k].completed)
    decreases n
  {
    if n > 0 {
      BumpKeepsInvariants(s, k);
      BumpSaturates(s, k);
      BumpTimesSaturates(Bump(s, k), k, n - 1);
      assert ExerciseOk(s.exercises[k]);
    }
  }

  /** A committed completion request that finds its exercise bumps that exercise's session. */
  lemma CompleteSetIsBump(store: Store, id: nat, index: int)
    requires 1 <= id <= |store|
    requires store[id - 1].status == Active
    requires Positional(store[id - 1].exercises)
    requires 0 <= index < |store[id - 1].exercises|
    requires Int64(id) && Int64(index)
    ensures CompleteSet(store, id, Some(index), false).store == store[id - 1 := Bump(store[id - 1], index)]
  {
    FindPositional(store[id - 1].exercises, index);
  }

  /** The first of `n` committed completion requests bumps the session and leaves it addressable. */
  lemma CompleteTimesStep(store: Store, id: nat, index: int, n: nat)
    requires 1 <= id <= |store|
    requires Positional(store[id - 1].exercises) && store[id - 1].status == Active
    requires 0 <= index < |store[id - 1].exercises|
    requires Int64(id) && Int64(index)
    requires n > 0
    ensures var next := store[id - 1 := Bump(store[id - 1], index)];
            && CompleteTimes(store, id, index, n) == CompleteTimes(next, id, index, n - 1)
            && Positional(next[id - 1].exercises) && next[id - 1].status == Active
            && index < |next[id - 1].exercises|
  {
    CompleteSetIsBump(store, id, index);
  }

  /**
    If the last `n - 1` requests are `n - 1` bumps, all `n` are `n` bumps: the
    first request is one bump, and the rest start from the bumped session.
   */
  lemma CompleteTimesCons(store: Store, next: Store, id: nat, index: int, n: nat)
    requires 1 <= id <= |store|
    requires Positional(store[id - 1].exercises) && store[id - 1].status == Active
    requires 0 <= index < |store[id - 1].exercises|
    requires Int64(id) && Int64(index)
    requires n > 0
    requires next == store[id - 1 := Bump(store[id - 1], index)]
    requires CompleteTimes(next, id, index, n - 1) == next[id - 1 := BumpTimes(next[id - 1], index, n - 1)]
    ensures CompleteTimes(store, id, index, n) == store[id - 1 := BumpTimes(store[id - 1], index, n)]
  {
    var s := store[id - 1];
    var rest := BumpTimes(Bump(s, index), index, n - 1);
    CompleteTimesStep(store, id, index, n);
    UpdateTwice(store, id - 1, Bump(s, index), rest);
    calc {
      CompleteTimes(store, id, index, n);
      CompleteTimes(next, id, index, n - 1);
      next[id - 1 := rest];
      store[id - 1 := rest];
      { assert BumpTimes(s, index, n) == rest; }
      store[id - 1 := BumpTimes(s, index, n)];
    }
  }

  /** `n` committed completion requests for an exercise in range are `n` bumps of that session. */
  lemma {:induction false} CompleteTimesIsBumpTimes(store: Store, id: nat, index: int, n: nat)
    requires 1 <= id <= |store|
    requires Positional(store[id - 1].exercises) && store[id - 1].status == Active
    requires 0 <= index < |store[id - 1].exercises|
    requires Int64(id) && Int64(index)
    ensures CompleteTimes(store, id, index, n) == store[id - 1 := BumpTimes(store[id - 1], index, n)]
    decreases n
  {
    if n > 0 {
      var next := store[id - 1 := Bump(store[id - 1], index)];
      CompleteTimesStep(store, id, index, n);
      CompleteTimesIsBumpTimes(next, id, index, n - 1);
      CompleteTimesCons(store, next, id, index, n);
    } else {
      CompleteTimesZero(store, id, index);
    }
  }

  /** Overwriting one slot twice keeps only the second value. */
  lemma UpdateTwice(store: Store, i: nat, a: Session, b: Session)
    requires i < |store|
    ensures store[i := a][i] == a
    ensures store[i := a][i := b] == store[i := b]
  {
  }

  /** No request leaves the store as it is, which is also no bump at all. */
  lemma CompleteTimesZero(store: Store, id: nat, index: int)
    requires 1 <= id <= |store|
    requires 0 <= index < |store[id - 1].exercises|
    ensures CompleteTimes(store, id, index, 0) == store[id - 1 := BumpTimes(store[id - 1], index, 0)]
  {
    assert store[id - 1 := store[id - 1]] == store;
  }

  /**
    Completing one exercise `n` times from counter `c` leaves it at
    `min(c + n, sets)`, and the session counter moves by the same amount: the
    calls past saturation change nothing.
   */
  lemma CompleteTimesSaturates(store: Store, id: nat, index: int, n: nat)
    requires StoreOk(store)
    requires Get(store, id).Some? && Get(store, id).value.status == Active
    requires 0 <= index < |store[id - 1].exercises|
    ensures StoreOk(CompleteTimes(store, id, index, n))
    ensures var s := store[id - 1];
            var s' := CompleteTimes(store, id, index, n)[id - 1];
            && s'.status == Active
            && s'.totalSets == s.totalSets
            && |s'.exercises| == |s.exercises|
            && s'.exercises[index].completed == Saturate(s.exercises[index].completed, n, Capacity(s.exercises[index]))
            && s'.completed == s.completed + (s'.exercises[index].completed - s.exercises[index].completed)
    ensures forall j :: 0 <= j < |store| && j != id - 1 ==> CompleteTimes(store, id, index, n)[j] == store[j]
  {
    var s := store[id - 1];
    assert WellFormed(s);
    CompleteTimesIsBumpTimes(store, id, index, n);
    BumpTimesSaturates(s, index, n);
    var after := store[id - 1 := BumpTimes(s, index, n)];
    forall i | 0 <= i < |after|
      ensures WellFormed(after[i])
    {
      if i != id - 1 {
        assert after[i] == store[i];
      }
    }
  }

  // ---------------------------------------------------------------------------
  // The session completion counter within the plan

  /**
    With negative planned set counts the session counter can pass its
    `totalSets`: plans of -5 and 10 sets give a total of 5, yet ten
    completions of the second exercise are all accepted.
   */
  lemma NegativePlanOverrunsTotal()
    ensures var started := Start([], None, [ExerciseSpec(None, Some(-5), None, None),
                                            ExerciseSpec(None, Some(10), None, None)], 0, false);
            var after := CompleteTimes(started.store, 1, 1, 10);
            && started.reply == Ok(Started(1, 5))
            && after[0].completed == 10 > after[0].totalSets == 5
  {
    var specs := [ExerciseSpec(None, Some(-5), None, None), ExerciseSpec(None, Some(10), None, None)];
    var exs := [Exercise(0, DefaultExerciseName, -5, DefaultReps, DefaultRest, 0),
                Exercise(1, DefaultExerciseName, 10, DefaultReps, DefaultRest, 0)];
    var started := Start([], None, specs, 0, false);
    assert started == Step([Session(None, DefaultTitle, Active, 0, None, 5, 0, exs)], Ok(Started(1, 5))) by {
      assert SpecSets(specs[1..]) == 10;
      assert SpecSets(specs) == 5;
      assert SpecFits(specs[0]) && SpecFits(specs[1]);
      assert Plan(specs) == exs;
    }
    assert StoreOk(started.store) && Capacity(exs[1]) == 10 by {
      assert SumSets(exs[1..]) == 10 && SumCompleted(exs[1..]) == 0;
    }
    CompleteTimesSaturates(started.store, 1, 1, 10);
  }

  /**
    The scenario of a "Leg Day" session with one push-up exercise of 3 sets:
    the first three completions count, the fourth is absorbed, and the
    workout reads as finished from the third on.
   */
  lemma LegDayScenario()
    ensures var st := Start([], Some("Leg Day"), [ExerciseSpec(Some("push-up"), Some(3), Some(12), Some(60))], 0, false);
            var c1 := CompleteSet(st.store, 1, Some(0), false);
            var c2 := CompleteSet(c1.store, 1, Some(0), false);
            var c3 := CompleteSet(c2.store, 1, Some(0), false);
            var c4 := CompleteSet(c3.store, 1, Some(0), false);
            && st.reply == Ok(Started(1, 3))
            && c1.reply == Ok(SetCompleted(1, 0, 1, 1, 3, false))
            && c2.reply == Ok(SetCompleted(1, 0, 2, 2, 3, false))
            && c3.reply == Ok(SetCompleted(1, 0, 3, 3, 3, true))
            && c4.reply == Ok(SetCompleted(1, 0, 3, 3, 3, true))
            && c4.store == c3.store
  {
    var specs := [ExerciseSpec(Some("push-up"), Some(3), Some(12), Some(60))];
    assert Plan(specs) == [Exercise(0, "push-up", 3, 12, 60, 0)];
    assert SpecSets(specs) == 3;
    assert Start([], Some("Leg Day"), specs, 0, false).store == LegDayAt(0);
    LegDayStep(0);
    LegDayStep(1);
    LegDayStep(2);
    LegDayStep(3);
  }

  /** The "Leg Day" store with `k` push-up sets done. */
  function LegDayAt(k: int): Store {
    [Session(None, "Leg Day", Active, 0, None, 3, k, [Exercise(0, "push-up", 3, 12, 60, k)])]
  }

  lemma LegDayStep(k: int)
    requires 0 <= k <= 3
    ensures var k' := if k < 3 then k + 1 else 3;
            CompleteSet(LegDayAt(k), 1, Some(0), false) ==
            Step(LegDayAt(k'), Ok(SetCompleted(1, 0, k', k', 3, k' >= 3)))
  {
    var store := LegDayAt(k);
    var s := store[0];
    assert Get(store, 1) == Some(s);
    assert FindExercise(s.exercises, 0) == Some(0);
    var k' := if k < 3 then k + 1 else 3;
    if k < 3 {
      assert s.exercises[0 := s.exercises[0].(completed := k')] == LegDayAt(k')[0].exercises;
    }
    assert Bump(s, 0) == LegDayAt(k')[0];
    assert store[0 := Bump(s, 0)] == LegDayAt(k');
  }
}

=== FILE: progress.dfy ===
/**
  The progress summary: a read-only roll-up of the sessions that started
  inside a trailing window of 7, 30 or 365 days. Timestamps are integer
  seconds; a calendar date is the day number `t / SecondsPerDay`.
 */
module Progress {
  import opened Records

  const SecondsPerDay: int := 86400
  /** Estimated minutes per completed set. */
  const MinutesPerSet: int := 3
  /** Experience points per completed set. */
  const XpPerSet: int := 10

  datatype Summary = Summary(workouts: int, totalTime: int, xpGained: int, streak: int)

  /** Window length in days: "month" and "year" are named, anything else is a week. */
  function PeriodDays(period: string): int {
    if period == "month" then 30
    else if period == "year" then 365
    else 7
  }

  /** Start of the window ending at `now`. */
  function Since(now: int, period: string): int {
    now - PeriodDays(period) * SecondsPerDay
  }

  /** The calendar date (day number) of a timestamp; `/` floors for a positive divisor. */
  function Day(t: int): int {
    t / SecondsPerDay
  }

  // ---------------------------------------------------------------------------
  // Reference definitions, over the store itself

  /** The session with id `id` exists and started at or after `since`. */
  predicate StartedSince(store: Store, id: int, since: int) {
    1 <= id <= |store| && store[id - 1].startTime >= since
  }

  /** Ids of the sessions that started at or after `since`. */
  function WindowIds(store: Store, since: int): set<int> {
    set id | 1 <= id <= |store| && StartedSince(store, id, since)
  }

  /** Completed sets over the sessions that started at or after `since`. */
  function WindowCompleted(store: Store, since: int): int {
    if |store| == 0 then 0
    else
      var last := store[|store| - 1];
      WindowCompleted(store[..|store| - 1], since) + (if last.startTime >= since then last.completed else 0)
  }

  /** The dates on which some session of the window started. */
  function ActiveDays(store: Store, since: int): set<int> {
    set s | s in store && s.startTime >= since :: Day(s.startTime)
  }

  // ---------------------------------------------------------------------------
  // The roll-up as the handler computes it: query, then fold over the rows

  /** The query: the sessions that started at or after `since`, in store order. */
  function InWindow(store: Store, since: int): seq<Session> {
    if |store| == 0 then []
    else
      var last := store[|store| - 1];
      InWindow(store[..|store| - 1], since) + (if last.startTime >= since then [last] else [])
  }

  /** The query keeps each session of the window as often as it is stored, and one row per id. */
  lemma {:induction false} InWindowCounts(store: Store, since: int)
    ensures var r := InWindow(store, since);
            && (forall s :: multiset(r)[s] == (if s.startTime >= since then multiset(store)[s] else 0))
            && |r| == |WindowIds(store, since)|
    decreases |store|
  {
    if |store| > 0 {
      var prefix := store[..|store| - 1];
      var last := store[|store| - 1];
      InWindowCounts(prefix, since);
      assert store == prefix + [last];
      WindowStep(prefix, last, since, InWindow(prefix, since));
      WindowIdsExtend(store, since);
    }
  }

  /**
    The query selects exactly the sessions of the window, each as often as it
    is stored, and yields one row per session id in the window.
   */
  lemma InWindowSelects(store: Store, since: int)
    ensures var r := InWindow(store, since);
            && (forall s :: multiset(r)[s] == (if s.startTime >= since then multiset(store)[s] else 0))
            && (forall s :: s in r <==> s in store && s.startTime >= since)
            && |r| == |WindowIds(store, since)|
  {
    var r := InWindow(store, since);
    InWindowCounts(store, since);
    forall s
      ensures s in r <==> s in store && s.startTime >= since
    {
      assert s in r <==> multiset(r)[s] > 0;
      assert s in store <==> multiset(store)[s] > 0;
    }
  }

  /** Extending the store by one session extends the query result by that session exactly when it is in the window. */
  lemma WindowStep(prefix: Store, last: Session, since: int, head: seq<Session>)
    requires forall s :: multiset(head)[s] == (if s.startTime >= since then multiset(prefix)[s] else 0)
    ensures var r := head + (if last.startTime >= since then [last] else []);
            forall s :: multiset(r)[s] == (if s.startTime >= since then multiset(prefix + [last])[s] else 0)
  {
    var tail := if last.startTime >= since then [last] else [];
    assert multiset(prefix + [last]) == multiset(prefix) + multiset{last};
    assert multiset(head + tail) == multiset(head) + multiset(tail);
  }

  /** Appending a session adds its id to the window exactly when it started in the window. */
  lemma WindowIdsExtend(store: Store, since: int)
    requires |store| > 0
    ensures |WindowIds(store, since)| ==
            |WindowIds(store[..|store| - 1], since)| + (if store[|store| - 1].startTime >= since then 1 else 0)
  {
    var prefix := store[..|store| - 1];
    var ids := WindowIds(prefix, since);
    assert |store| !in ids;
    if store[|store| - 1].startTime >= since {
      assert WindowIds(store, since) == ids + {|store|};
    } else {
      assert WindowIds(store, since) == ids;
    }
  }

  /** Completed sets summed over a list of sessions. */
  function SessionsCompleted(sessions: seq<Session>): int {
    if |sessions| == 0 then 0
    else SessionsCompleted(sessions[..|sessions| - 1]) + sessions[|sessions| - 1].completed
  }

  /** The dates on which the listed sessions started. */
  function StartDays(sessions: seq<Session>): set<int> {
    set s | s in sessions :: Day(s.startTime)
  }

  /**
    The summary the handler returns for `period` at time `now`: number of
    sessions in the window, 3 minutes and 10 XP per completed set, and the
    number of distinct start dates.
   */
  function Summarize(store: Store, now: int, period: string): (r: Summary)
    ensures r.workouts == |WindowIds(store, Since(now, period))|
    ensures r.totalTime == MinutesPerSet * WindowCompleted(store, Since(now, period))
    ensures r.xpGained == XpPerSet * WindowCompleted(store, Since(now, period))
    ensures r.streak == |ActiveDays(store, Since(now, period))|
    ensures 0 <= r.streak <= r.workouts
    ensures r.streak == 0 <==> r.workouts == 0
  {
    var since := Since(now, period);
    var sessions := InWindow(store, since);
    InWindowSelects(store, since);
    FoldMatchesWindow(store, since);
    StartDaysBounded(sessions);
    assert StartDays(sessions) == ActiveDays(store, since);
    Summary(|sessions|, MinutesPerSet * SessionsCompleted(sessions),
            XpPerSet * SessionsCompleted(sessions), |StartDays(sessions)|)
  }

  /** Folding over the query result gives the completed sets of the window. */
  lemma {:induction false} FoldMatchesWindow(store: Store, since: int)
    ensures SessionsCompleted(InWindow(store, since)) == WindowCompleted(store, since)
    decreases |store|
  {
    if |store| > 0 {
      var prefix := store[..|store| - 1];
      var last := store[|store| - 1];
      FoldMatchesWindow(prefix, since);
      var head := InWindow(prefix, since);
      if last.startTime >= since {
        assert (head + [last])[..|head|] == head;
      } else {
        assert head + [] == head;
      }
    }
  }

  /** There are at most as many start dates as sessions, and some exactly when there are sessions. */
  lemma {:induction false} StartDaysBounded(sessions: seq<Session>)
    ensures |StartDays(sessions)| <= |sessions|
    ensures |StartDays(sessions)| == 0 <==> |sessions| == 0
    decreases |sessions|
  {
    if |sessions| > 0 {
      var prefix := sessions[..|sessions| - 1];
      var last := sessions[|sessions| - 1];
      assert sessions == prefix + [last];
      assert StartDays(sessions) == StartDays(prefix) + {Day(last.startTime)};
      StartDaysBounded(prefix);
    } else {
      assert StartDays(sessions) == {};
    }
  }

  // ---------------------------------------------------------------------------
  // Properties of the summary

  /** With no session in the window every metric is zero. */
  lemma EmptyWindowIsZero(store: Store, now: int, period: string)
    requires forall i :: 0 <= i < |store| ==> store[i].startTime < Since(now, period)
    ensures Summarize(store, now, period) == Summary(0, 0, 0, 0)
  {
    var since := Since(now, period);
    forall id | 1 <= id <= |store|
      ensures !StartedSince(store, id, since)
    {
      assert store[id - 1].startTime < since;
    }
    assert WindowIds(store, since) == {};
  }

  /**
    "month" looks back 30 days, "year" 365 days, and every other period
    string a week; so the year window contains the month window, which
    contains the week window.
   */
  lemma PeriodWindows(now: int, period: string)
    ensures period == "month" ==> Since(now, period) == now - 30 * SecondsPerDay
    ensures period == "year" ==> Since(now, period) == now - 365 * SecondsPerDay
    ensures period != "month" && period != "year" ==> Since(now, period) == now - 7 * SecondsPerDay
    ensures Since(now, "year") <= Since(now, "month") <= Since(now, "week")
    ensures Since(now, "year") <= Since(now, period) <= Since(now, "week")
  {
  }

  /** A session counts in every window that starts no later than it does, so longer windows see more. */
  lemma {:induction false} WiderWindowSeesMore(store: Store, since1: int, since2: int)
    requires since1 <= since2
    requires StoreOk(store)
    ensures WindowIds(store, since2) <= WindowIds(store, since1)
    ensures ActiveDays(store, since2) <= ActiveDays(store, since1)
    ensures WindowCompleted(store, since2) <= WindowCompleted(store, since1)
    decreases |store|
  {
    if |store| > 0 {
      var prefix := store[..|store| - 1];
      var last := store[|store| - 1];
      assert WellFormed(last);
      SumCompletedNonNegative(last.exercises);
      WiderWindowSeesMore(prefix, since1, since2);
    }
  }

  lemma {:induction false} SumCompletedNonNegative(exs: seq<Exercise>)
    requires forall i :: 0 <= i < |exs| ==> ExerciseOk(exs[i])
    ensures SumCompleted(exs) >= 0
    decreases |exs|
  {
    if |exs| > 0 {
      assert ExerciseOk(exs[0]);
      SumCompletedNonNegative(exs[1..]);
    }
  }

  /** For a well-formed store, the year summary dominates the month summary, which dominates the week summary. */
  lemma LongerPeriodDominates(store: Store, now: int)
    requires StoreOk(store)
    ensures var w := Summarize(store, now, "week");
            var m := Summarize(store, now, "month");
            var y := Summarize(store, now, "year");
            && w.workouts <= m.workouts <= y.workouts
            && w.xpGained <= m.xpGained <= y.xpGained
            && w.totalTime <= m.totalTime <= y.totalTime
            && w.streak <= m.streak <= y.streak
  {
    var week, month, year := Since(now, "week"), Since(now, "month"), Since(now, "year");
    WiderWindowSeesMore(store, month, week);
    WiderWindowSeesMore(store, year, month);
    SubsetCardinality(WindowIds(store, week), WindowIds(store, month));
    SubsetCardinality(WindowIds(store, month), WindowIds(store, year));
    SubsetCardinality(ActiveDays(store, week), ActiveDays(store, month));
    SubsetCardinality(ActiveDays(store, month), ActiveDays(store, year));
  }

  lemma SubsetCardinality(a: set<int>, b: set<int>)
    requires a <= b
    ensures |a| <= |b|
  {
    assert b == a + (b - a);
  }

  /**
    Two sessions started within the week with 2 and 5 completed sets give
    2 workouts, 21 minutes and 70 XP; the streak is 1 when they started on
    the same date and 2 otherwise.
   */
  lemma TwoSessionsScenario(a: Session, b: Session, now: int)
    requires a.completed == 2 && b.completed == 5
    requires Since(now, "week") <= a.startTime && Since(now, "week") <= b.startTime
    ensures var r := Summarize([a, b], now, "week");
            && r.workouts == 2 && r.totalTime == 21 && r.xpGained == 70
            && r.streak == (if Day(a.startTime) == Day(b.startTime) then 1 else 2)
  {
    var store := [a, b];
    var since := Since(now, "week");
    assert |WindowIds(store, since)| == 2 by {
      assert StartedSince(store, 1, since) && StartedSince(store, 2, since);
      assert WindowIds(store, since) == {1, 2};
    }
    assert WindowCompleted(store, since) == 7 by {
      assert store[..1] == [a];
      assert WindowCompleted(store[..1], since) == 2;
    }
    assert |ActiveDays(store, since)| == (if Day(a.startTime) == Day(b.startTime) then 1 else 2) by {
      assert ActiveDays(store, since) == {Day(a.startTime), Day(b.startTime)};
    }
  }
}

=== FILE: records.dfy ===
/**
  The persistent records of the workout tracker: a session, the exercises it
  owns, the abstract store that holds sessions, and the invariants every
  stored session keeps.
 */
module Records {

  datatype Option<+T> = None | Some(value: T) {
    /** The held value, or `default` when absent. */
    function GetOr(default: T): T {
      match this
      case Some(v) => v
      case None => default
    }
  }

  /** Session status; `Active` is the state a session is created in. */
  datatype Status = Active | Finished

  /** One planned movement of a session, addressed by its `orderIndex`. */
  datatype Exercise = Exercise(
    orderIndex: int,
    name: string,
    sets: int,
    reps: int,
    rest: int,
    completed: int)

  /** One workout attempt. Timestamps are integer seconds. */
  datatype Session = Session(
    owner: Option<string>,
    title: string,
    status: Status,
    startTime: int,
    endTime: Option<int>,
    totalSets: int,
    completed: int,
    exercises: seq<Exercise>)

  /**
    The session table. Session ids are allocated 1, 2, 3, … in creation order
    and sessions are never deleted, so the session with id `k` is `store[k - 1]`.
   */
  type Store = seq<Session>

  /** SQLite stores an INTEGER column as a signed 64-bit value; a larger Python int cannot be written. */
  const MinInt64: int := -0x8000_0000_0000_0000
  const MaxInt64: int := 0x7fff_ffff_ffff_ffff

  predicate Int64(x: int) {
    MinInt64 <= x <= MaxInt64
  }

  /** The session with the given id, if there is one. */
  function Get(store: Store, id: int): (r: Option<Session>)
    ensures r.Some? <==> 1 <= id <= |store|
    ensures r.Some? ==> r.value == store[id - 1]
  {
    if 1 <= id <= |store| then Some(store[id - 1]) else None
  }

  /** The number of sets an exercise can actually absorb: a negative plan accepts none. */
  function Capacity(e: Exercise): nat {
    if e.sets < 0 then 0 else e.sets
  }

  /** Sum of the planned `sets` of the exercises. */
  function SumSets(exs: seq<Exercise>): int {
    if |exs| == 0 then 0 else exs[0].sets + SumSets(exs[1..])
  }

  /** Sum of the `completed` counters of the exercises. */
  function SumCompleted(exs: seq<Exercise>): int {
    if |exs| == 0 then 0 else exs[0].completed + SumCompleted(exs[1..])
  }

  /** Every exercise sits at the position its `orderIndex` names. */
  predicate Positional(exs: seq<Exercise>) {
    forall i :: 0 <= i < |exs| ==> exs[i].orderIndex == i
  }

  /** An exercise's counter stays between zero and what it can absorb. */
  predicate ExerciseOk(e: Exercise) {
    0 <= e.completed <= Capacity(e)
  }

  /** The invariants every stored session keeps. */
  predicate WellFormed(s: Session) {
    && Positional(s.exercises)
    && |s.exercises| <= MaxInt64 + 1  // every order index fits its 64-bit column
    && (forall i :: 0 <= i < |s.exercises| ==> ExerciseOk(s.exercises[i]))
    && s.completed == SumCompleted(s.exercises)
    && s.totalSets == SumSets(s.exercises)
    && (s.status == Finished <==> s.endTime.Some?)
  }

  /** Every session is well-formed, and every id fits the 64-bit rowid. */
  predicate StoreOk(store: Store) {
    && |store| <= MaxInt64
    && forall i :: 0 <= i < |store| ==> WellFormed(store[i])
  }

  /** No exercise of the session plans a negative number of sets. */
  predicate NonNegativePlan(exs: seq<Exercise>) {
    forall i :: 0 <= i < |exs| ==> exs[i].sets >= 0
  }

  /**
    What may change in a stored session over time: its counters may grow and
    it may become finished (and get a new end time); nothing else changes,
    and a finished session never becomes active again.
   */
  predicate Advances(a: Session, b: Session) {
    && b.owner == a.owner
    && b.title == a.title
    && b.startTime == a.startTime
    && b.totalSets == a.totalSets
    && a.completed <= b.completed
    && (a.status == Finished ==> b.status == Finished)
    && |b.exercises| == |a.exercises|
    && forall i :: 0 <= i < |a.exercises| ==>
         && b.exercises[i].(completed := a.exercises[i].completed) == a.exercises[i]
         && a.exercises[i].completed <= b.exercises[i].completed
  }

  /** Every session of `a` has advanced in `b`; `b` may hold new sessions. */
  predicate StoreAdvances(a: Store, b: Store) {
    && |a| <= |b|
    && forall i :: 0 <= i < |a| ==> Advances(a[i], b[i])
  }

  // ---------------------------------------------------------------------------
  // Lookups after the two ways the store changes

  /** Appending a session gives it the next id and leaves every other lookup as it was. */
  lemma GetAppend(store: Store, s: Session, j: int)
    ensures Get(store + [s], j) == if j == |store| + 1 then Some(s) else Get(store, j)
  {
  }

  /** Replacing the session with id `k` changes the lookup of `k` alone. */
  lemma GetUpdate(store: Store, k: int, s: Session, j: int)
    requires 1 <= k <= |store|
    ensures Get(store[k - 1 := s], j) == if j == k then Some(s) else Get(store, j)
  {
  }

  // ---------------------------------------------------------------------------
  // Facts about the sums and the invariants

  /** Replacing one exercise changes the completed total by the difference of the counters. */
  lemma {:induction false} SumCompletedUpdate(exs: seq<Exercise>, k: int, e: Exercise)
    requires 0 <= k < |exs|
    ensures SumCompleted(exs[k := e]) == SumCompleted(exs) - exs[k].completed + e.completed
    decreases |exs|
  {
    if k == 0 {
      assert exs[k := e][1..] == exs[1..];
    } else {
      assert exs[k := e][1..] == exs[1..][k - 1 := e];
      SumCompletedUpdate(exs[1..], k - 1, e);
    }
  }

  /** Replacing one exercise by one with the same plan keeps the planned total. */
  lemma {:induction false} SumSetsUpdate(exs: seq<Exercise>, k: int, e: Exercise)
    requires 0 <= k < |exs|
    requires e.sets == exs[k].sets
    ensures SumSets(exs[k := e]) == SumSets(exs)
    decreases |exs|
  {
    if k == 0 {
      assert exs[k := e][1..] == exs[1..];
    } else {
      assert exs[k := e][1..] == exs[1..][k - 1 := e];
      SumSetsUpdate(exs[1..], k - 1, e);
    }
  }

  /** Counters within non-negative plans add up to at most the planned total. */
  lemma {:induction false} SumCompletedBounded(exs: seq<Exercise>)
    requires NonNegativePlan(exs)
    requires forall i :: 0 <= i < |exs| ==> ExerciseOk(exs[i])
    ensures 0 <= SumCompleted(exs) <= SumSets(exs)
    decreases |exs|
  {
    if |exs| > 0 {
      assert ExerciseOk(exs[0]);
      SumCompletedBounded(exs[1..]);
    }
  }

  /**
    A well-formed session whose exercises plan no negative set count has
    `0 <= completed <= totalSets`.
   */
  lemma CompletedWithinTotal(s: Session)
    requires WellFormed(s)
    requires NonNegativePlan(s.exercises)
    ensures 0 <= s.completed <= s.totalSets
  {
    SumCompletedBounded(s.exercises);
  }

  lemma AdvancesTransitive(a: Session, b: Session, c: Session)
    requires Advances(a, b) && Advances(b, c)
    ensures Advances(a, c)
  {
    forall i | 0 <= i < |a.exercises|
      ensures c.exercises[i].(completed := a.exercises[i].completed) == a.exercises[i]
    {
      assert b.exercises[i].(completed := a.exercises[i].completed) == a.exercises[i];
      assert c.exercises[i].(completed := b.exercises[i].completed) == b.exercises[i];
    }
  }

  lemma StoreAdvancesTransitive(a: Store, b: Store, c: Store)
    requires StoreAdvances(a, b) && StoreAdvances(b, c)
    ensures StoreAdvances(a, c)
  {
    forall i | 0 <= i < |a|
      ensures Advances(a[i], c[i])
    {
      AdvancesTransitive(a[i], b[i], c[i]);
    }
  }
}
